=== FILE: README.md ===
# Hydroponic systems: measurement query and owner-checked writes

A Dafny model of the logic in a Django application that tracks hydroponic
growing systems owned by users and the timestamped sensor measurements
(pH, temperature, total dissolved solids) attached to each system.

Two parts are modelled:

- **The system detail page.** The raw GET parameters become a filter
  description. The parser is tolerant: an empty or unparseable date applies
  no bound. When no display flag is `on`, all three are. A value bound of
  zero is falsy and is not applied. A bound that fails to parse drops the
  whole value filter. A missing or non-integer page number becomes 1. The
  system's measurements are ordered newest first, narrowed by one `.filter`
  step per active bound, and cut into pages of 10 by Django's paginator.
  An out-of-range page number, below 1 or above the last page, is served the
  last page.
- **The store and its writes.** Users, systems and measurements are kept in
  primary-key order. Both foreign keys cascade on delete. User emails and
  usernames are unique. `add_system`, `add_sensor` and `delete_system` are
  modelled, together with the owner-scoped querysets and create hooks of the
  two REST viewsets.

Modules, one file each:

| file | module | models |
|---|---|---|
| options.dfy | `Options` | `Option` (Python `None`) |
| seqs.dfy | `Seqs` | order-preserving `Filter`, subsequences, pairwise relations, `Concat` |
| models.dfy | `Models` | `api/models.py`: records, store invariant `Valid`, inserts, cascading deletes |
| ordering.dfy | `Ordering` | `order_by('-timestamp')` |
| filters.dfy | `Filters` | parsing the GET parameters into a `FilterSpec` |
| query.dfy | `Query` | the filter chain and its single-predicate reference definition |
| paging.dfy | `Paging` | `Paginator(..., 10).get_page(...)` |
| views.dfy | `Views` | the views and viewset hooks of `api/views.py` |

Conventions. Library conversions are passed in as a `Conversions` record:
Django's `parse_date`, Python's `float` and `int`, and the conversion of an
instant to a local calendar date behind `timestamp__date`. A conversion that
raises `ValueError` returns `None`. Timestamps are integers (instants).
Readings and bounds are `real`. The three readings have no range
constraint, matching the unconstrained float columns. The current time is a
parameter `now`. The authenticated user is a parameter `caller`. The
database's order for equal timestamps is unspecified; the model breaks ties
by store order (a stable sort), which is one order the database may return.

Points where the code behaves in a way one might not expect, all modelled as written:

- The detail page looks the system up by key alone (api/views.py:173),
  while `add_sensor` and `delete_system` also match the owner
  (api/views.py:268, 295).
- A bound that fails to parse drops both value bounds, not just itself,
  because both `float()` calls precede every `.filter` in one `try`
  (api/views.py:205-219).
- A page number below 1 is served the last page, not page 1. This is
  Django's `get_page` behaviour.
- `add_system` with an empty name redirects silently and reports no
  validation failure (api/views.py:258-260).

## Model

| member | source | states |
|---|---|---|
| Filters.KindOf | api/views.py:209-217 | `filter_type` selects a reading only when it is exactly `ph`, `temperature` or `tds` |
| Filters.ParseDateBound | api/views.py:179-190 | a missing, empty or unparseable date gives no bound; otherwise the bound is the parsed date |
| Filters.ParseFlags | api/views.py:193-198 | when some flag is `'on'`, each flag is on iff its parameter is exactly `'on'`; when none is, all three are on |
| Filters.ParseValueFilter | api/views.py:201-219 | the value filter exists iff `filter_type` names a reading and neither bound fails to parse; an applied bound is the parsed, non-zero value; every parsed non-zero bound is applied |
| Filters.ParsePage | api/views.py:223-228 | a missing page or one `int` rejects becomes 1; otherwise the parsed integer, unvalidated |
| Filters.ParseFilter | api/views.py:179-228 | the whole filter description: a date bound iff the date is given and parses, the parsed flags and value filter, and the parsed page number or 1 when missing or rejected |
| Filters.ParseValueFilterIntended | api/views.py:205-217 | corrected value filter: every bound that parses is applied, zero included |
| Filters.ParseFilterIntended | api/views.py:205-217 | corrected filter description: the deployed description is this one with every zero bound dropped, and they agree on everything but the value filter |
| Ordering.SortNewestFirst | api/views.py:176 | the result is newest first and a permutation of the input |
| Ordering.FilterKeepsNewestFirst | api/views.py:176-217 | a filter applied after the ordering keeps the rows newest first |
| Query.SystemMeasurements | api/views.py:176 | exactly the store's measurements of that system, in store order |
| Query.OrderedBase | api/views.py:176 | the system's measurements, newest first, as a permutation |
| Query.FilterChain | api/views.py:182-217 | the chained `.filter` steps keep a row iff it matches every active date and value bound |
| Query.FilterChainIsOneFilter | api/views.py:182-217 | the conditional chain equals one filter by the declarative predicate `Matches`, so it keeps multiplicities and order |
| Query.Rows | api/views.py:173-217 | the rows paged are exactly the system's measurements that match, newest first, a subsequence of the ordered base |
| Query.SameDayWindow | api/views.py:182-190 | with start and end on the same day and no value filter, the rows are exactly that day's measurements (both bounds inclusive) |
| Query.ZeroUpperBoundDropped | api/views.py:210-217 | `filter_type=temperature&max_value=0` applies no upper bound, so a 20-degree row passes; the corrected parse applies the bound and excludes that row |
| Paging.NumPages | api/views.py:222 | the page count is the least positive number of 10-item pages that holds all items |
| Paging.ServedNumber | api/views.py:230 | the served number is in `[1, numPages]`; a valid request is kept; anything else gets the last page |
| Paging.GetPage | api/views.py:222-230 | the served number `p` is the requested one when in range and the last otherwise; page `p` holds items `(p-1)*10` up to `min(p*10, n)`, at most 10; only the last page may be short; an empty list gives page 1 of 1 with no items; previous/next flags |
| Paging.PageWindow | api/views.py:230 | page `k+1` is the slice of the list starting at `k*10` |
| Paging.WindowsFrom | api/views.py:222 | consecutive 10-item windows of a list, from window `k` on, concatenate to the rest of the list |
| Paging.PagesReassemble | api/views.py:222-230 | pages 1 to `numPages` concatenated give back the whole list |
| Views.FindSystem | api/views.py:173 | finds a system iff one with that key exists, whoever owns it |
| Views.FindOwnedSystem | api/views.py:268 | finds a system iff one with that key is owned by the caller |
| Views.OwnedSystems | api/views.py:100-104 | the viewset sees exactly the caller's systems |
| Views.OwnedMeasurements | api/views.py:151-155 | the viewset sees exactly the measurements of the caller's systems |
| Views.OwnedMeasurementsDisjoint | api/views.py:151-155 | in a valid store, no measurement is visible to two different users |
| Views.PageOfRows | api/views.py:222-230 | a page cut from the filtered rows is newest first and holds only matching measurements of that system |
| Views.DetailOf | api/views.py:222-230 | the detail of a system under a filter: its count and page total come from the matching rows, the served number is the requested one or the last page, the items are exactly that page's window of the rows, and previous/next are set iff the page is not the first/last |
| Views.SystemDetail | api/views.py:167-230 | renders iff the system exists, whoever owns it; the served number is the requested one when in range and the last page otherwise; the page holds exactly rows `(p-1)*10` to `min(p*10, n)` of the matching, newest-first rows, at most 10; its count is the number of matching rows; previous/next are set iff the served page is not the first/last |
| Views.ForeignSystemShown | api/views.py:173 | a system owned by someone else is still rendered for the caller |
| Views.FlagsDoNotChangeRows | api/views.py:193-198 | two requests that differ only in the display flags get the same page |
| Views.SystemDetailGuarded | api/views.py:173 | corrected detail page: renders iff the caller owns a system with that key, and shows that stored system; the count, served number, page total, window and previous/next flags are fixed by the rows exactly as on the deployed page |
| Views.AddSystem | api/views.py:250-260 | one system owned by the caller is created iff the request is a POST with a non-empty name and a location that fit their columns; otherwise the store is unchanged |
| Views.AddSensor | api/views.py:263-277 | one measurement stamped `now` is appended iff the caller owns the system; otherwise NotFound and the store is unchanged |
| Views.DeleteSystem | api/views.py:290-297 | iff the caller owns the system, it and exactly its measurements are removed; otherwise NotFound and the store is unchanged |
| Views.CreateOwnedSystem | api/views.py:106-110 | a created system's owner is the caller, whatever owner the request claims |
| Views.CreateCheckedMeasurement | api/views.py:157-164 | a measurement is created iff the caller owns the target system; otherwise it is refused and no row is created |
| Views.AddSystemPreservesValid | api/views.py:250-260 | `add_system` keeps the store valid, rewrites no record, and gives the new system a fresh key |
| Views.AddSensorPreservesValid | api/views.py:268-277 | `add_sensor` keeps the store valid, rewrites no record, and gives the new measurement a fresh key |
| Views.DeleteSystemKeepsValid | api/views.py:295-296 | `delete_system` keeps the store valid, and the deleted system is gone |
| Views.ViewSetCreatesPreserveValid | api/views.py:106-164 | the viewset create hooks keep the store valid and rewrite no record |
| Models.SystemKeyUnique | api/models.py:13-17 | in a valid store a key identifies one system |
| Models.InsertSystem | api/models.py:13-17 | a created system has the next key, its creation time, and the given owner, name and location |
| Models.InsertMeasurement | api/models.py:23-30 | a created measurement has the next key, its creation time, its system and its readings |
| Models.InsertSystemPreservesValid | api/models.py:7-17 | inserting a system with an existing owner and fitting fields keeps keys and emails unique and rewrites no record |
| Models.InsertMeasurementPreservesValid | api/models.py:24-30 | inserting a measurement of an existing system keeps the store valid and rewrites no record |
| Models.DeleteSystemCascade | api/models.py:24-26 | deleting a system removes it and exactly its measurements, nothing else |
| Models.DeleteSystemPreservesValid | api/models.py:24-26 | the system cascade keeps the store valid and leaves no system with that key |
| Models.DeleteUserCascade | api/models.py:17 | deleting a user removes the user, exactly the user's systems and exactly their measurements |
| Models.DeleteUserPreservesValid | api/models.py:17 | the user cascade keeps the store valid, and a measurement survives iff its system does |

## Left out

- Template context and rendering (api/views.py:233-247), the JSON body of `add_sensor` and its `strftime` formatting (api/views.py:279-287): presentation only.
- The random readings and their rounding in `add_sensor` (api/views.py:273-275): the readings are arbitrary parameters.
- The internals of `parse_date`, `float` and `int`: these are library code, so they are parameters. This covers NaN, infinities, exponent forms and whitespace handling.
- The exception `parse_date` raises for a well-formed but impossible date such as `2024-02-30`. This uncaught server error is not modelled, because the date conversion returns only a date or nothing.
- The time-zone conversion behind `timestamp__date`: it is the `localDate` parameter.
- `select_related` and `prefetch_related` (api/views.py:173, 176): query optimisation with no effect on results.
- The paginator counting and slicing under concurrent writes: every operation is a function of one store state.
- The login redirect of `@login_required` and the JWT authentication of the viewsets: the caller is a given authenticated user.
- Registration, token, user and dashboard views, admin, forms, URL routing and serializer field lists: framework configuration with no logic of their own.
- The viewsets' other CRUD actions (list, retrieve, update, destroy): only their owner-scoped querysets and create hooks are modelled.
- Views.CreateOwnedSystem: the serializer's whitespace trimming of `name` and `location` is not modelled. Only its blank-name and width checks are.
- Views.CreateCheckedMeasurement: the refusal of a foreign system is modelled as `Rejected`. In the code, `serializers` is an unbound name in api/views.py, so this branch actually ends in a server error. Either way no row is created.
- Views.AddSystem: declared column widths are modelled as enforced by the store (`StoreError`). That holds for strict databases. SQLite would store an over-long name.
- Repeated query parameters: a parameter is modelled as one value, the one `request.GET.get` returns.
- Ordering.SortNewestFirst: the order of equal timestamps is fixed to store order. The database promises no particular tie order.

## Findings

| source | as written | input that shows it | evidently intended | confidence | as-written member | corrected member |
|---|---|---|---|---|---|---|
| api/views.py:173 | the detail page fetches the system by `id` alone | once the view is routed, a logged-in user requests the detail page of a system owned by another user and sees its measurements | fetch by `id` and `owner=request.user`, as `add_sensor` and `delete_system` do | medium, not executed | Views.ForeignSystemShown | Views.SystemDetailGuarded |
| api/views.py:210-217 | a bound is applied only if it is truthy, so a bound of `0` is dropped | `filter_type=temperature&max_value=0` still returns a row at 20 degrees | apply every bound that parsed (`is not None`) | medium, not executed | Query.ZeroUpperBoundDropped | Filters.ParseValueFilterIntended |

`Views.SystemDetailGuarded` is the corrected detail page. It uses both
corrections: the owner check and `Filters.ParseFilterIntended`.
`Views.SystemDetail` models the page as deployed.
The exposure at api/views.py:173 needs a route to `system_detail_view`.
Neither hydroponic/urls.py:6-21 nor api/urls.py:10-17 defines one, and the
same holds for `add_system`, `add_sensor` and `delete_system`; the finding
is about the view's own text, which any route added later would inherit.

=== FILE: filters.dfy ===
/**
 * Turning the raw GET parameters of the system detail page into a filter
 * description. Parsing never fails: a bad date, a bad number or a bad page
 * number degrades to "not applied" or to page 1.
 *
 * The string conversions belong to libraries outside this model (Django's
 * `parse_date`, Python's `float` and `int`, and the conversion of an instant
 * to a calendar date in the current time zone), so they are passed in as a
 * `Conversions` record; a conversion that raises `ValueError` returns `None`.
 */
module Filters {
  import opened Options

  /** The query string: each parameter's value (the last one when repeated). */
  type Params = map<string, string>

  /** `request.GET.get(key)`. */
  function Lookup(p: Params, key: string): Option<string> {
    if key in p then Some(p[key]) else None
  }

  /** A calendar date, compared as Python compares `datetime.date` values. */
  datatype Date = Date(year: int, month: int, day: int)

  predicate DateLe(a: Date, b: Date) {
    a.year < b.year || (a.year == b.year && (a.month < b.month || (a.month == b.month && a.day <= b.day)))
  }

  datatype Conversions = Conversions(
    parseDate: string -> Option<Date>,
    parseFloat: string -> Option<real>,
    parseInt: string -> Option<int>,
    localDate: int -> Date)

  /** The three readings a value filter can target. */
  datatype Kind = Ph | Temperature | Tds

  /** Which reading columns the page shows. */
  datatype DisplayFlags = DisplayFlags(ph: bool, temperature: bool, tds: bool)

  /** A value-range filter on one reading, with the bounds that are actually applied. */
  datatype ValueFilter = ValueFilter(kind: Kind, lower: Option<real>, upper: Option<real>)

  datatype FilterSpec = FilterSpec(
    start: Option<Date>,
    end: Option<Date>,
    flags: DisplayFlags,
    value: Option<ValueFilter>,
    page: int)

  /** The outcome of `float(raw) if raw else None`. */
  datatype BoundParse = Absent | Parsed(number: real) | Malformed

  const StartKey := "start_date"
  const EndKey := "end_date"
  const ShowPhKey := "show_ph"
  const ShowTemperatureKey := "show_temperature"
  const ShowTdsKey := "show_tds"
  const FilterTypeKey := "filter_type"
  const MinKey := "min_value"
  const MaxKey := "max_value"
  const PageKey := "page"

  /** The keys that only choose columns. */
  const FlagKeys: set<string> := {ShowPhKey, ShowTemperatureKey, ShowTdsKey}

  /** The reading a `filter_type` value names; anything but the three exact names names none. */
  function KindOf(filterType: string): (k: Option<Kind>)
    ensures k == Some(Ph) <==> filterType == "ph"
    ensures k == Some(Temperature) <==> filterType == "temperature"
    ensures k == Some(Tds) <==> filterType == "tds"
  {
    if filterType == "ph" then Some(Ph)
    else if filterType == "temperature" then Some(Temperature)
    else if filterType == "tds" then Some(Tds)
    else None
  }

  /** A parameter is present and not the empty string (Python truthiness of a string). */
  predicate Given(p: Params, key: string) {
    Lookup(p, key).Some? && Lookup(p, key).value != ""
  }

  /** A date bound: absent, empty or unparseable means no bound. */
  function ParseDateBound(p: Params, key: string, conv: Conversions): (d: Option<Date>)
    ensures d.Some? ==> Given(p, key) && conv.parseDate(p[key]) == d
    ensures Given(p, key) && conv.parseDate(p[key]).Some? ==> d.Some?
  {
    if Given(p, key) then conv.parseDate(p[key]) else None
  }

  /** A parameter equals exactly `'on'`. */
  predicate IsOn(p: Params, key: string) {
    Lookup(p, key) == Some("on")
  }

  /** The display flags; when none is on, all three are. */
  function ParseFlags(p: Params): (f: DisplayFlags)
    ensures f.ph || f.temperature || f.tds
    ensures IsOn(p, ShowPhKey) ==> f.ph
    ensures IsOn(p, ShowTemperatureKey) ==> f.temperature
    ensures IsOn(p, ShowTdsKey) ==> f.tds
    ensures IsOn(p, ShowPhKey) || IsOn(p, ShowTemperatureKey) || IsOn(p, ShowTdsKey) ==>
              f == DisplayFlags(IsOn(p, ShowPhKey), IsOn(p, ShowTemperatureKey), IsOn(p, ShowTdsKey))
    ensures !(IsOn(p, ShowPhKey) || IsOn(p, ShowTemperatureKey) || IsOn(p, ShowTdsKey)) ==>
              f == DisplayFlags(true, true, true)
  {
    var ph := IsOn(p, ShowPhKey);
    var temperature := IsOn(p, ShowTemperatureKey);
    var tds := IsOn(p, ShowTdsKey);
    if !(ph || temperature || tds) then DisplayFlags(true, true, true)
    else DisplayFlags(ph, temperature, tds)
  }

  function ParseBound(p: Params, key: string, conv: Conversions): BoundParse {
    if !Given(p, key) then Absent
    else match conv.parseFloat(p[key])
      case None => Malformed
      case Some(v) => Parsed(v)
  }

  /** A bound is given but `float` rejects it. */
  predicate BoundFails(p: Params, key: string, conv: Conversions) {
    Given(p, key) && conv.parseFloat(p[key]).None?
  }

  /** A parsed bound is used only when it is truthy, that is, non-zero. */
  function Applied(b: BoundParse): Option<real> {
    if b.Parsed? && b.number != 0.0 then Some(b.number) else None
  }

  /** `filter_type`, defaulting to the empty string. */
  function FilterType(p: Params): string {
    Lookup(p, FilterTypeKey).GetOr("")
  }

  /**
   * The value filter. Both bounds are converted inside one `try` before any
   * bound is applied, so a bound that fails to parse drops the whole filter;
   * a bound that parses to zero is falsy and is not applied.
   */
  function ParseValueFilter(p: Params, conv: Conversions): (vf: Option<ValueFilter>)
    ensures vf.Some? <==>
              KindOf(FilterType(p)).Some? && !BoundFails(p, MinKey, conv) && !BoundFails(p, MaxKey, conv)
    ensures vf.Some? ==> KindOf(FilterType(p)) == Some(vf.value.kind)
    ensures vf.Some? && vf.value.lower.Some? ==>
              Given(p, MinKey) && conv.parseFloat(p[MinKey]) == vf.value.lower && vf.value.lower.value != 0.0
    ensures vf.Some? && vf.value.upper.Some? ==>
              Given(p, MaxKey) && conv.parseFloat(p[MaxKey]) == vf.value.upper && vf.value.upper.value != 0.0
    ensures forall v :: vf.Some? && Given(p, MinKey) && conv.parseFloat(p[MinKey]) == Some(v) && v != 0.0 ==>
              vf.value.lower == Some(v)
    ensures forall v :: vf.Some? && Given(p, MaxKey) && conv.parseFloat(p[MaxKey]) == Some(v) && v != 0.0 ==>
              vf.value.upper == Some(v)
  {
    var lower := ParseBound(p, MinKey, conv);
    var upper := ParseBound(p, MaxKey, conv);
    if lower.Malformed? || upper.Malformed? then None
    else match KindOf(FilterType(p))
      case None => None
      case Some(k) => Some(ValueFilter(k, Applied(lower), Applied(upper)))
  }

  /** `int(request.GET.get('page', 1))`, with 1 when `int` raises. */
  function ParsePage(p: Params, conv: Conversions): (n: int)
    ensures Lookup(p, PageKey).None? ==> n == 1
    ensures PageKey in p && conv.parseInt(p[PageKey]).None? ==> n == 1
    ensures PageKey in p && conv.parseInt(p[PageKey]).Some? ==> n == conv.parseInt(p[PageKey]).value
  {
    match Lookup(p, PageKey)
    case None => 1
    case Some(raw) => conv.parseInt(raw).GetOr(1)
  }

  /** The whole filter description of one request. */
  function ParseFilter(p: Params, conv: Conversions): (spec: FilterSpec)
    ensures spec.start.Some? ==> Given(p, StartKey) && conv.parseDate(p[StartKey]) == spec.start
    ensures spec.end.Some? ==> Given(p, EndKey) && conv.parseDate(p[EndKey]) == spec.end
    ensures spec.flags.ph || spec.flags.temperature || spec.flags.tds
    ensures spec.value.Some? ==> KindOf(FilterType(p)).Some?
    ensures !Given(p, StartKey) ==> spec.start.None?
    ensures !Given(p, EndKey) ==> spec.end.None?
    ensures PageKey !in p ==> spec.page == 1
    ensures PageKey in p && conv.parseInt(p[PageKey]).None? ==> spec.page == 1
    ensures PageKey in p && conv.parseInt(p[PageKey]).Some? ==> spec.page == conv.parseInt(p[PageKey]).value
    ensures Given(p, StartKey) ==> spec.start == conv.parseDate(p[StartKey])
    ensures Given(p, EndKey) ==> spec.end == conv.parseDate(p[EndKey])
    ensures spec.flags == ParseFlags(p)
    ensures spec.value == ParseValueFilter(p, conv)
    ensures spec.page == 1 || (PageKey in p && conv.parseInt(p[PageKey]) == Some(spec.page))
  {
    FilterSpec(
      ParseDateBound(p, StartKey, conv),
      ParseDateBound(p, EndKey, conv),
      ParseFlags(p),
      ParseValueFilter(p, conv),
      ParsePage(p, conv))
  }

  /**
   * The value filter as evidently intended: a bound that parses is applied
   * whatever its value, zero included (`is not None` rather than truthiness).
   */
  function ParseValueFilterIntended(p: Params, conv: Conversions): (vf: Option<ValueFilter>)
    ensures vf.Some? <==>
              KindOf(FilterType(p)).Some? && !BoundFails(p, MinKey, conv) && !BoundFails(p, MaxKey, conv)
    ensures vf.Some? ==> KindOf(FilterType(p)) == Some(vf.value.kind)
    ensures vf.Some? ==> (vf.value.lower.Some? <==> Given(p, MinKey))
    ensures vf.Some? ==> (vf.value.upper.Some? <==> Given(p, MaxKey))
    ensures vf.Some? && Given(p, MinKey) ==> conv.parseFloat(p[MinKey]) == vf.value.lower
    ensures vf.Some? && Given(p, MaxKey) ==> conv.parseFloat(p[MaxKey]) == vf.value.upper
  {
    var lower := ParseBound(p, MinKey, conv);
    var upper := ParseBound(p, MaxKey, conv);
    if lower.Malformed? || upper.Malformed? then None
    else match KindOf(FilterType(p))
      case None => None
      case Some(k) =>
        Some(ValueFilter(k,
          if lower.Parsed? then Some(lower.number) else None,
          if upper.Parsed? then Some(upper.number) else None))
  }

  /** A bound of zero, as the truthiness test sees it: not applied. */
  function DropZero(b: Option<real>): Option<real> {
    if b == Some(0.0) then None else b
  }

  /** The value filter with every zero bound removed. */
  function DropZeroBounds(vf: Option<ValueFilter>): Option<ValueFilter> {
    match vf
    case None => None
    case Some(f) => Some(ValueFilter(f.kind, DropZero(f.lower), DropZero(f.upper)))
  }

  /**
   * The filter description with the intended value filter. It differs from
   * the deployed one only in the value filter, and there only in that the
   * deployed parse drops every bound equal to zero.
   */
  function ParseFilterIntended(p: Params, conv: Conversions): (spec: FilterSpec)
    ensures spec.value == ParseValueFilterIntended(p, conv)
    ensures ParseFilter(p, conv).value == DropZeroBounds(spec.value)
    ensures spec.(value := None) == ParseFilter(p, conv).(value := None)
  {
    ParseFilter(p, conv).(value := ParseValueFilterIntended(p, conv))
  }
}

=== FILE: models.dfy ===
/**
 * The records of api/models.py and the store that holds them: users with
 * unique usernames and emails, hydroponic systems each owned by one user,
 * and measurements each attached to one system. Primary keys are assigned
 * from counters and never reused; records are only inserted and deleted,
 * never rewritten, so `createdAt` and `timestamp` keep the value they were
 * created with. Deleting a system, or a user, cascades along the foreign keys.
 */
module Models {
  import opened Options
  import opened Seqs

  type UserId = nat
  type SystemId = nat
  type MeasurementId = nat

  /** Declared widths of the `name` and `location` columns of a system. */
  const MaxNameLength: nat := 100
  const MaxLocationLength: nat := 255

  datatype User = User(id: UserId, username: string, email: string)

  datatype HydroponicSystem = HydroponicSystem(
    id: SystemId,
    name: string,
    location: Option<string>,
    createdAt: int,
    owner: UserId)

  /**
   * One sensor reading. `timestamp` is an instant (any fixed unit since a
   * fixed epoch); the three readings are unconstrained numbers.
   */
  datatype Measurement = Measurement(
    id: MeasurementId,
    system: SystemId,
    timestamp: int,
    ph: real,
    temperature: real,
    tds: real)

  /** The database: each table in primary-key order, plus the next key of each auto-increment table. */
  datatype Store = Store(
    users: seq<User>,
    systems: seq<HydroponicSystem>,
    measurements: seq<Measurement>,
    nextSystemId: SystemId,
    nextMeasurementId: MeasurementId)

  predicate FieldsFit(name: string, location: Option<string>) {
    |name| <= MaxNameLength && (location.Some? ==> |location.value| <= MaxLocationLength)
  }

  predicate HasUser(s: Store, u: UserId) {
    exists v :: v in s.users && v.id == u
  }

  predicate HasSystem(s: Store, id: SystemId) {
    exists x :: x in s.systems && x.id == id
  }

  /** Two distinct users share neither key, username nor email. */
  predicate UsersApart(a: User, b: User) {
    a.id != b.id && a.username != b.username && a.email != b.email
  }

  predicate SystemKeysAscend(a: HydroponicSystem, b: HydroponicSystem) {
    a.id < b.id
  }

  predicate MeasurementKeysAscend(a: Measurement, b: Measurement) {
    a.id < b.id
  }

  /** The integrity rules the database keeps. */
  predicate Valid(s: Store) {
    && Pairwise(s.users, UsersApart)
    && Pairwise(s.systems, SystemKeysAscend)
    && Pairwise(s.measurements, MeasurementKeysAscend)
    && (forall x :: x in s.systems ==>
          x.id < s.nextSystemId && HasUser(s, x.owner) && FieldsFit(x.name, x.location))
    && (forall m :: m in s.measurements ==>
          m.id < s.nextMeasurementId && HasSystem(s, m.system))
  }

  /** No record that existed before is rewritten: anything in `t` with an old key is an old record. */
  predicate RecordsKept(s: Store, t: Store) {
    && (forall x :: x in t.systems ==> x in s.systems || x.id >= s.nextSystemId)
    && (forall m :: m in t.measurements ==> m in s.measurements || m.id >= s.nextMeasurementId)
  }

  /** In a valid store a system key identifies one system. */
  lemma SystemKeyUnique(s: Store, x: HydroponicSystem, y: HydroponicSystem)
    requires Valid(s) && x in s.systems && y in s.systems && x.id == y.id
    ensures x == y
  {
    forall a, b | 0 <= a < b < |s.systems|
      ensures s.systems[a].id != s.systems[b].id
    {
      assert SystemKeysAscend(s.systems[a], s.systems[b]);
    }
  }

  /** The keys of the systems `u` owns. */
  function SystemsOf(s: Store, u: UserId): (ids: set<SystemId>)
    ensures forall id :: id in ids <==> exists x :: x in s.systems && x.owner == u && x.id == id
  {
    set x | x in s.systems && x.owner == u :: x.id
  }

  /** `objects.create` for a system: the next key, the creation instant, the given owner. */
  function InsertSystem(s: Store, owner: UserId, name: string, location: Option<string>, now: int)
    : (r: (Store, HydroponicSystem))
    ensures r.1.id == s.nextSystemId && r.1.owner == owner && r.1.name == name
    ensures r.1.location == location && r.1.createdAt == now
    ensures r.0.systems == s.systems + [r.1]
    ensures r.0.users == s.users && r.0.measurements == s.measurements
    ensures r.0.nextSystemId > r.1.id && r.0.nextMeasurementId == s.nextMeasurementId
  {
    var x := HydroponicSystem(s.nextSystemId, name, location, now, owner);
    (s.(systems := s.systems + [x], nextSystemId := s.nextSystemId + 1), x)
  }

  /** `objects.create` for a measurement: the next key and the creation instant. */
  function InsertMeasurement(s: Store, system: SystemId, ph: real, temperature: real, tds: real, now: int)
    : (r: (Store, Measurement))
    ensures r.1.id == s.nextMeasurementId && r.1.system == system && r.1.timestamp == now
    ensures r.1.ph == ph && r.1.temperature == temperature && r.1.tds == tds
    ensures r.0.measurements == s.measurements + [r.1]
    ensures r.0.users == s.users && r.0.systems == s.systems
    ensures r.0.nextMeasurementId > r.1.id && r.0.nextSystemId == s.nextSystemId
  {
    var m := Measurement(s.nextMeasurementId, system, now, ph, temperature, tds);
    (s.(measurements := s.measurements + [m], nextMeasurementId := s.nextMeasurementId + 1), m)
  }

  lemma InsertSystemPreservesValid(s: Store, owner: UserId, name: string, location: Option<string>, now: int)
    requires Valid(s) && HasUser(s, owner) && FieldsFit(name, location)
    ensures Valid(InsertSystem(s, owner, name, location, now).0)
    ensures RecordsKept(s, InsertSystem(s, owner, name, location, now).0)
  {
    var (t, x) := InsertSystem(s, owner, name, location, now);
    PairwiseAppend(s.systems, x, SystemKeysAscend);
    forall m | m in t.measurements
      ensures HasSystem(t, m.system)
    {
      var y :| y in s.systems && y.id == m.system;
      assert y in t.systems;
    }
  }

  lemma InsertMeasurementPreservesValid(s: Store, system: SystemId, ph: real, temperature: real, tds: real, now: int)
    requires Valid(s) && HasSystem(s, system)
    ensures Valid(InsertMeasurement(s, system, ph, temperature, tds, now).0)
    ensures RecordsKept(s, InsertMeasurement(s, system, ph, temperature, tds, now).0)
  {
    var (t, m) := InsertMeasurement(s, system, ph, temperature, tds, now);
    PairwiseAppend(s.measurements, m, MeasurementKeysAscend);
  }

  /**
   * Deleting a system (`on_delete=CASCADE` on Measurement.hydroponic_system):
   * the system and exactly its own measurements disappear.
   */
  function DeleteSystemCascade(s: Store, id: SystemId): (t: Store)
    ensures t.users == s.users
    ensures t.nextSystemId == s.nextSystemId && t.nextMeasurementId == s.nextMeasurementId
    ensures forall x :: x in t.systems <==> x in s.systems && x.id != id
    ensures forall m :: m in t.measurements <==> m in s.measurements && m.system != id
    ensures SubsequenceOf(t.systems, s.systems) && SubsequenceOf(t.measurements, s.measurements)
  {
    s.(systems := Filter(s.systems, (x: HydroponicSystem) => x.id != id),
       measurements := Filter(s.measurements, (m: Measurement) => m.system != id))
  }

  lemma {:induction false} DeleteSystemPreservesValid(s: Store, id: SystemId)
    requires Valid(s)
    ensures Valid(DeleteSystemCascade(s, id))
    ensures RecordsKept(s, DeleteSystemCascade(s, id))
    ensures !HasSystem(DeleteSystemCascade(s, id), id)
  {
    var t := DeleteSystemCascade(s, id);
    SubsequencePairwise(t.systems, s.systems, SystemKeysAscend);
    SubsequencePairwise(t.measurements, s.measurements, MeasurementKeysAscend);
    forall m | m in t.measurements
      ensures HasSystem(t, m.system)
    {
      var y :| y in s.systems && y.id == m.system;
      assert y in t.systems;
    }
  }

  /**
   * Deleting a user (`on_delete=CASCADE` on HydroponicSystem.owner): the
   * user, the user's systems and, through them, their measurements disappear.
   */
  function DeleteUserCascade(s: Store, u: UserId): (t: Store)
    ensures t.nextSystemId == s.nextSystemId && t.nextMeasurementId == s.nextMeasurementId
    ensures forall v :: v in t.users <==> v in s.users && v.id != u
    ensures forall x :: x in t.systems <==> x in s.systems && x.owner != u
    ensures forall m :: m in t.measurements <==> m in s.measurements && m.system !in SystemsOf(s, u)
    ensures SubsequenceOf(t.users, s.users)
    ensures SubsequenceOf(t.systems, s.systems) && SubsequenceOf(t.measurements, s.measurements)
  {
    var gone := SystemsOf(s, u);
    s.(users := Filter(s.users, (v: User) => v.id != u),
       systems := Filter(s.systems, (x: HydroponicSystem) => x.owner != u),
       measurements := Filter(s.measurements, (m: Measurement) => m.system !in gone))
  }

  /**
   * In a valid store, the cascade from a user reaches exactly the
   * measurements of that user's systems: a measurement survives iff its
   * system does, and the store stays valid.
   */
  lemma {:induction false} DeleteUserPreservesValid(s: Store, u: UserId)
    requires Valid(s)
    ensures Valid(DeleteUserCascade(s, u))
    ensures RecordsKept(s, DeleteUserCascade(s, u))
    ensures !HasUser(DeleteUserCascade(s, u), u)
    ensures forall m :: m in DeleteUserCascade(s, u).measurements <==>
              m in s.measurements && HasSystem(DeleteUserCascade(s, u), m.system)
  {
    var t := DeleteUserCascade(s, u);
    SubsequencePairwise(t.users, s.users, UsersApart);
    SubsequencePairwise(t.systems, s.systems, SystemKeysAscend);
    SubsequencePairwise(t.measurements, s.measurements, MeasurementKeysAscend);
    forall x | x in t.systems
      ensures HasUser(t, x.owner)
    {
      var v :| v in s.users && v.id == x.owner;
      assert v in t.users;
    }
    forall m | m in s.measurements
      ensures m in t.measurements <==> HasSystem(t, m.system)
    {
      var y :| y in s.systems && y.id == m.system;
      if m in t.measurements {
        assert y.owner != u;
        assert y in t.systems;
      } else {
        assert m.system in SystemsOf(s, u);
        var z :| z in s.systems && z.owner == u && z.id == m.system;
        forall w | w in t.systems
          ensures w.id != m.system
        {
          if w.id == m.system {
            SystemKeyUnique(s, w, z);
          }
        }
      }
    }
  }
}

=== FILE: options.dfy ===
/** Optional values shared by the other modules. */
module Options {

  /** A value that may be missing: Python's `None` versus a present value. */
  datatype Option<+T> = None | Some(value: T) {

    /** The value, or `default` when there is none. */
    function GetOr(default: T): T {
      match this
      case Some(v) => v
      case None => default
    }
  }
}

=== FILE: ordering.dfy ===
/**
 * `order_by('-timestamp')`: measurements newest first. The database leaves
 * the order of equal timestamps open; this model fixes it to store order
 * (a stable sort), which is one of the orders the database may produce.
 */
module Ordering {
  import opened Seqs
  import opened Models

  predicate NotOlder(a: Measurement, b: Measurement) {
    a.timestamp >= b.timestamp
  }

  /** Every measurement is at least as recent as every one after it. */
  predicate NewestFirst(s: seq<Measurement>) {
    Pairwise(s, NotOlder)
  }

  /** Prepending a measurement newer than everything keeps the order. */
  lemma PrependNewest(x: Measurement, t: seq<Measurement>)
    requires NewestFirst(t)
    requires forall y :: y in t ==> NotOlder(x, y)
    ensures NewestFirst([x] + t)
  {
    var r := [x] + t;
    forall i, j | 0 <= i < j < |r|
      ensures NotOlder(r[i], r[j])
    {
      if i == 0 {
        assert r[j] in t;
      } else {
        assert r[i] == t[i - 1] && r[j] == t[j - 1];
      }
    }
  }

  /** Puts `m` before the first element that is not newer than it. */
  function InsertNewestFirst(m: Measurement, s: seq<Measurement>): (r: seq<Measurement>)
    requires NewestFirst(s)
    ensures NewestFirst(r)
    ensures multiset(r) == multiset(s) + multiset{m}
    ensures forall x :: x in r ==> x == m || x in s
  {
    if |s| == 0 || m.timestamp >= s[0].timestamp then
      assert forall y :: y in s ==> NotOlder(s[0], y) by {
        forall y | y in s ensures NotOlder(s[0], y) {
          var k :| 0 <= k < |s| && s[k] == y;
          if k > 0 { assert NotOlder(s[0], s[k]); }
        }
      }
      PrependNewest(m, s);
      [m] + s
    else
      var tail := s[1..];
      assert NewestFirst(tail) by {
        forall i, j | 0 <= i < j < |tail| ensures NotOlder(tail[i], tail[j]) {
          assert NotOlder(s[i + 1], s[j + 1]);
        }
      }
      var rest := InsertNewestFirst(m, tail);
      assert forall y :: y in rest ==> NotOlder(s[0], y) by {
        forall y | y in rest ensures NotOlder(s[0], y) {
          if y != m {
            var k :| 0 <= k < |tail| && tail[k] == y;
            assert NotOlder(s[0], s[k + 1]);
          }
        }
      }
      PrependNewest(s[0], rest);
      assert s == [s[0]] + tail;
      [s[0]] + rest
  }

  /** The measurements of `s`, rearranged newest first. */
  function SortNewestFirst(s: seq<Measurement>): (r: seq<Measurement>)
    ensures NewestFirst(r)
    ensures multiset(r) == multiset(s)
    ensures |r| == |s|
  {
    if |s| == 0 then []
    else
      assert s == [s[0]] + s[1..];
      InsertNewestFirst(s[0], SortNewestFirst(s[1..]))
  }

  /**
   * Filtering a newest-first sequence keeps it newest first: no filter
   * applied after `order_by` changes the relative order of what it keeps.
   */
  lemma FilterKeepsNewestFirst(s: seq<Measurement>, p: Measurement -> bool)
    requires NewestFirst(s)
    ensures NewestFirst(Filter(s, p))
  {
    SubsequencePairwise(Filter(s, p), s, NotOlder);
  }
}

=== FILE: paging.dfy ===
/**
 * Django's `Paginator(object_list, 10).get_page(number)` with no orphans and
 * an allowed empty first page: there is always at least one page, and a
 * page number outside the valid range is served the last page.
 */
module Paging {
  import opened Seqs

  const PerPage: nat := 10

  datatype Page<T> = Page(
    items: seq<T>,
    number: nat,
    count: nat,
    numPages: nat,
    hasPrevious: bool,
    hasNext: bool)

  function Min(a: int, b: int): int {
    if a <= b then a else b
  }

  /** The window of page `number`: items `(number - 1) * PerPage` up to `min(number * PerPage, |all|)`. */
  function Window<T>(all: seq<T>, number: int): seq<T>
    requires 1 <= number && (number - 1) * PerPage <= |all|
  {
    all[(number - 1) * PerPage .. Min(number * PerPage, |all|)]
  }

  /** `ceil(max(1, count) / PerPage)`: the fewest pages, at least one, that hold `count` items. */
  function NumPages(count: nat): (n: nat)
    ensures n >= 1
    ensures count <= n * PerPage
    ensures n == 1 || (n - 1) * PerPage < count
  {
    var hits := if count < 1 then 1 else count;
    (hits + PerPage - 1) / PerPage
  }

  /** `get_page`'s choice: a valid number is kept, anything else becomes the last page. */
  function ServedNumber(requested: int, numPages: nat): (p: nat)
    requires numPages >= 1
    ensures 1 <= p <= numPages
    ensures 1 <= requested <= numPages ==> p == requested
    ensures requested < 1 || numPages < requested ==> p == numPages
  {
    if requested < 1 || requested > numPages then numPages else requested
  }

  /** The page served for `requested`, with its navigation metadata. */
  function GetPage<T>(all: seq<T>, requested: int): (pg: Page<T>)
    ensures pg.count == |all| && pg.numPages == NumPages(|all|)
    ensures 1 <= pg.number <= pg.numPages
    ensures pg.number == ServedNumber(requested, pg.numPages)
    ensures 1 <= requested <= pg.numPages ==> pg.number == requested
    ensures requested < 1 || pg.numPages < requested ==> pg.number == pg.numPages
    ensures (pg.number - 1) * PerPage <= |all|
    ensures |pg.items| == Min(PerPage, |all| - (pg.number - 1) * PerPage)
    ensures forall k :: 0 <= k < |pg.items| ==> pg.items[k] == all[(pg.number - 1) * PerPage + k]
    ensures pg.items == Window(all, pg.number)
    ensures pg.number < pg.numPages ==> |pg.items| == PerPage
    ensures |all| > 0 ==> |pg.items| > 0
    ensures |all| == 0 ==> pg.number == 1 && pg.items == []
    ensures pg.hasPrevious <==> pg.number > 1
    ensures pg.hasNext <==> pg.number < pg.numPages
  {
    var n := NumPages(|all|);
    var number := ServedNumber(requested, n);
    var bottom := (number - 1) * PerPage;
    var top := if bottom + PerPage >= |all| then |all| else bottom + PerPage;
    Page(all[bottom..top], number, |all|, n, number > 1, number < n)
  }

  /** The items of every page, in page order. */
  function AllPages<T>(all: seq<T>): (pages: seq<seq<T>>)
    ensures |pages| == NumPages(|all|)
  {
    seq(NumPages(|all|), i => GetPage(all, i + 1).items)
  }

  /** Page `k + 1` is the window of `all` starting at `k * PerPage`. */
  lemma PageWindow<T>(all: seq<T>, k: nat)
    requires k < NumPages(|all|)
    ensures k * PerPage <= Min((k + 1) * PerPage, |all|) <= |all|
    ensures AllPages(all)[k] == all[k * PerPage .. Min((k + 1) * PerPage, |all|)]
  {
    var pg := GetPage(all, k + 1);
    assert pg.number == k + 1;
    assert AllPages(all)[k] == pg.items;
  }

  lemma ConcatStep<T>(ss: seq<seq<T>>, k: nat)
    requires k < |ss|
    ensures Concat(ss[k..]) == ss[k] + Concat(ss[k + 1..])
  {
    assert ss[k..][0] == ss[k];
    assert ss[k..][1..] == ss[k + 1..];
  }

  /** Consecutive windows of `all`, from window `k` on, concatenate to the rest of `all`. */
  lemma {:induction false} WindowsFrom<T>(all: seq<T>, pages: seq<seq<T>>, k: nat)
    requires forall i :: 0 <= i < |pages| ==>
               i * PerPage <= |all| && pages[i] == all[i * PerPage .. Min((i + 1) * PerPage, |all|)]
    requires |all| <= |pages| * PerPage
    requires k <= |pages|
    ensures Concat(pages[k..]) == all[Min(k * PerPage, |all|)..]
    decreases |pages| - k
  {
    if k == |pages| {
      assert pages[k..] == [];
    } else {
      var lo := k * PerPage;
      var mid := Min((k + 1) * PerPage, |all|);
      WindowsFrom(all, pages, k + 1);
      ConcatStep(pages, k);
      assert all[lo..] == all[lo..mid] + all[mid..];
    }
  }

  /** Pages 1 to `numPages`, concatenated, give back the whole list. */
  lemma PagesReassemble<T>(all: seq<T>)
    ensures Concat(AllPages(all)) == all
  {
    var pages := AllPages(all);
    forall i | 0 <= i < |pages|
      ensures i * PerPage <= |all| && pages[i] == all[i * PerPage .. Min((i + 1) * PerPage, |all|)]
    {
      PageWindow(all, i);
    }
    WindowsFrom(all, pages, 0);
    assert pages[0..] == pages;
  }
}

=== FILE: query.dfy ===
/**
 * The measurement query of the system detail page: the system's
 * measurements, newest first, narrowed by the date bounds and by the value
 * filter, each bound applied as a separate `.filter` step.
 */
module Query {
  import opened Options
  import opened Seqs
  import opened Models
  import opened Ordering
  import opened Filters

  /** The reading a value filter targets. */
  function Reading(m: Measurement, k: Kind): real {
    match k
    case Ph => m.ph
    case Temperature => m.temperature
    case Tds => m.tds
  }

  /** `timestamp__date__gte`, or no bound. */
  predicate OnOrAfter(conv: Conversions, start: Option<Date>, m: Measurement) {
    start.None? || DateLe(start.value, conv.localDate(m.timestamp))
  }

  /** `timestamp__date__lte`, or no bound. */
  predicate OnOrBefore(conv: Conversions, end: Option<Date>, m: Measurement) {
    end.None? || DateLe(conv.localDate(m.timestamp), end.value)
  }

  /** The value filter's `__gte` and `__lte` on its reading, each only when applied. */
  predicate WithinValue(vf: Option<ValueFilter>, m: Measurement) {
    vf.None? ||
    ((vf.value.lower.None? || Reading(m, vf.value.kind) >= vf.value.lower.value) &&
     (vf.value.upper.None? || Reading(m, vf.value.kind) <= vf.value.upper.value))
  }

  /** The single declarative predicate a row must satisfy. Display flags play no part. */
  predicate Matches(spec: FilterSpec, conv: Conversions, m: Measurement) {
    OnOrAfter(conv, spec.start, m) && OnOrBefore(conv, spec.end, m) && WithinValue(spec.value, m)
  }

  function MatchesFn(spec: FilterSpec, conv: Conversions): Measurement -> bool {
    (m: Measurement) => Matches(spec, conv, m)
  }

  /** `Measurement.objects.filter(hydroponic_system=system)`. */
  function SystemMeasurements(s: Store, id: SystemId): (r: seq<Measurement>)
    ensures forall m :: m in r <==> m in s.measurements && m.system == id
    ensures SubsequenceOf(r, s.measurements)
  {
    Filter(s.measurements, (m: Measurement) => m.system == id)
  }

  /** `... .order_by('-timestamp')`. */
  function OrderedBase(s: Store, id: SystemId): (r: seq<Measurement>)
    ensures NewestFirst(r)
    ensures multiset(r) == multiset(SystemMeasurements(s, id))
    ensures forall m :: m in r <==> m in s.measurements && m.system == id
  {
    var r := SortNewestFirst(SystemMeasurements(s, id));
    assert forall m :: m in r <==> m in multiset(r);
    r
  }

  /**
   * The chain of conditional `.filter` calls, in the order the view applies
   * them: start date, end date, lower value bound, upper value bound.
   */
  function FilterChain(base: seq<Measurement>, spec: FilterSpec, conv: Conversions): (r: seq<Measurement>)
    ensures forall m :: m in r <==> m in base && Matches(spec, conv, m)
  {
    var afterStart := match spec.start
      case None => base
      case Some(d) => Filter(base, (m: Measurement) => DateLe(d, conv.localDate(m.timestamp)));
    var byDate := match spec.end
      case None => afterStart
      case Some(d) => Filter(afterStart, (m: Measurement) => DateLe(conv.localDate(m.timestamp), d));
    match spec.value
    case None => byDate
    case Some(vf) =>
      var aboveLower := match vf.lower
        case None => byDate
        case Some(lo) => Filter(byDate, (m: Measurement) => Reading(m, vf.kind) >= lo);
      match vf.upper
      case None => aboveLower
      case Some(hi) => Filter(aboveLower, (m: Measurement) => Reading(m, vf.kind) <= hi)
  }

  /** One optional `.filter` step is a filter by the step's predicate, or by a predicate true everywhere. */
  lemma {:induction false} OptionalStep(before: seq<Measurement>, after: seq<Measurement>,
                                       applied: bool, step: Measurement -> bool, total: Measurement -> bool)
    requires applied ==> after == Filter(before, step) && forall m :: total(m) == step(m)
    requires !applied ==> after == before && forall m :: total(m)
    ensures after == Filter(before, total)
  {
    if applied {
      FilterSamePredicate(before, step, total);
    } else {
      FilterKeepsAll(before, total);
    }
  }

  /**
   * The chained query equals one filter by `Matches`: it keeps exactly the
   * matching rows, with their multiplicities, in the order of `base`.
   */
  lemma {:induction false} FilterChainIsOneFilter(base: seq<Measurement>, spec: FilterSpec, conv: Conversions)
    ensures FilterChain(base, spec, conv) == Filter(base, MatchesFn(spec, conv))
  {
    var a := (m: Measurement) => OnOrAfter(conv, spec.start, m);
    var b := (m: Measurement) => OnOrBefore(conv, spec.end, m);
    var ab := (m: Measurement) => OnOrAfter(conv, spec.start, m) && OnOrBefore(conv, spec.end, m);
    var afterStart := match spec.start
      case None => base
      case Some(d) => Filter(base, (m: Measurement) => DateLe(d, conv.localDate(m.timestamp)));
    var byDate := match spec.end
      case None => afterStart
      case Some(d) => Filter(afterStart, (m: Measurement) => DateLe(conv.localDate(m.timestamp), d));
    match spec.start {
      case None => OptionalStep(base, afterStart, false, a, a);
      case Some(d) =>
        OptionalStep(base, afterStart, true, (m: Measurement) => DateLe(d, conv.localDate(m.timestamp)), a);
    }
    match spec.end {
      case None => OptionalStep(afterStart, byDate, false, b, b);
      case Some(d) =>
        OptionalStep(afterStart, byDate, true, (m: Measurement) => DateLe(conv.localDate(m.timestamp), d), b);
    }
    FilterFuse(base, a, b, ab);
    assert byDate == Filter(base, ab);
    match spec.value {
      case None =>
        FilterSamePredicate(base, ab, MatchesFn(spec, conv));
      case Some(vf) =>
        var lo := (m: Measurement) => vf.lower.None? || Reading(m, vf.kind) >= vf.lower.value;
        var hi := (m: Measurement) => vf.upper.None? || Reading(m, vf.kind) <= vf.upper.value;
        var abLo := (m: Measurement) => ab(m) && lo(m);
        var aboveLower := match vf.lower
          case None => byDate
          case Some(l) => Filter(byDate, (m: Measurement) => Reading(m, vf.kind) >= l);
        match vf.lower {
          case None => OptionalStep(byDate, aboveLower, false, lo, lo);
          case Some(l) => OptionalStep(byDate, aboveLower, true, (m: Measurement) => Reading(m, vf.kind) >= l, lo);
        }
        FilterFuse(base, ab, lo, abLo);
        var last := FilterChain(base, spec, conv);
        match vf.upper {
          case None => OptionalStep(aboveLower, last, false, hi, hi);
          case Some(h) => OptionalStep(aboveLower, last, true, (m: Measurement) => Reading(m, vf.kind) <= h, hi);
        }
        FilterFuse(base, abLo, hi, MatchesFn(spec, conv));
    }
  }

  /**
   * The rows handed to the paginator: exactly the system's measurements
   * that match the filter, newest first, in the order of the ordered base.
   */
  function Rows(s: Store, id: SystemId, spec: FilterSpec, conv: Conversions): (r: seq<Measurement>)
    ensures NewestFirst(r)
    ensures forall m :: m in r <==> m in s.measurements && m.system == id && Matches(spec, conv, m)
    ensures SubsequenceOf(r, OrderedBase(s, id))
    ensures r == Filter(OrderedBase(s, id), MatchesFn(spec, conv))
  {
    var base := OrderedBase(s, id);
    FilterChainIsOneFilter(base, spec, conv);
    FilterKeepsNewestFirst(base, MatchesFn(spec, conv));
    FilterChain(base, spec, conv)
  }

  /**
   * With both date bounds on the same day and no value filter, the rows are
   * exactly the system's measurements taken on that day (in local time).
   */
  lemma SameDayWindow(s: Store, id: SystemId, spec: FilterSpec, conv: Conversions, day: Date)
    requires spec.start == Some(day) && spec.end == Some(day) && spec.value.None?
    ensures forall m :: m in Rows(s, id, spec, conv) <==>
              m in s.measurements && m.system == id && conv.localDate(m.timestamp) == day
  {
  }

  /**
   * `filter_type=temperature&max_value=0`: the upper bound parses to zero,
   * is falsy, and is dropped, so a row at 20 degrees is still returned; the
   * intended parse applies the bound and excludes that row.
   */
  lemma ZeroUpperBoundDropped(conv: Conversions, m: Measurement)
    requires conv.parseFloat("0") == Some(0.0)
    requires m.temperature == 20.0
    ensures ParseValueFilter(map[FilterTypeKey := "temperature", MaxKey := "0"], conv)
              == Some(ValueFilter(Temperature, None, None))
    ensures WithinValue(ParseValueFilter(map[FilterTypeKey := "temperature", MaxKey := "0"], conv), m)
    ensures ParseValueFilterIntended(map[FilterTypeKey := "temperature", MaxKey := "0"], conv)
              == Some(ValueFilter(Temperature, None, Some(0.0)))
    ensures !WithinValue(ParseValueFilterIntended(map[FilterTypeKey := "temperature", MaxKey := "0"], conv), m)
  {
    var p := map[FilterTypeKey := "temperature", MaxKey := "0"];
    assert Lookup(p, FilterTypeKey) == Some("temperature");
    assert MinKey !in p;
    assert Given(p, MaxKey) && p[MaxKey] == "0";
  }
}


=== FILE: seqs.dfy ===
/**
 * Generic facts about sequences: order-preserving filtering, subsequences,
 * pairwise relations and concatenation. The query pipeline and the cascading
 * deletes are all built from `Filter`.
 */
module Seqs {

  /** `a` can be obtained from `b` by deleting elements, keeping the order of the rest. */
  predicate SubsequenceOf<T(==)>(a: seq<T>, b: seq<T>)
    decreases |b|
  {
    if |a| == 0 then true
    else if |b| == 0 then false
    else (a[0] == b[0] && SubsequenceOf(a[1..], b[1..])) || SubsequenceOf(a, b[1..])
  }

  /** Every pair of positions `i < j` of `s` is related by `rel`. */
  predicate Pairwise<T>(s: seq<T>, rel: (T, T) -> bool) {
    forall i, j :: 0 <= i < j < |s| ==> rel(s[i], s[j])
  }

  /** The elements of `s` that satisfy `p`, in their original order. */
  function Filter<T(==,!new)>(s: seq<T>, p: T -> bool): (r: seq<T>)
    ensures |r| <= |s|
    ensures forall x :: x in r <==> x in s && p(x)
    ensures SubsequenceOf(r, s)
  {
    if |s| == 0 then []
    else if p(s[0]) then
      var rest := Filter(s[1..], p);
      assert ([s[0]] + rest)[1..] == rest;
      [s[0]] + rest
    else Filter(s[1..], p)
  }

  /** Concatenation of a sequence of sequences. */
  function Concat<T>(ss: seq<seq<T>>): (r: seq<T>)
  {
    if |ss| == 0 then [] else ss[0] + Concat(ss[1..])
  }

  /** Filtering twice is filtering once by the conjunction. */
  lemma {:induction false} FilterFuse<T(!new)>(s: seq<T>, p: T -> bool, q: T -> bool, pq: T -> bool)
    requires forall x :: pq(x) == (p(x) && q(x))
    ensures Filter(Filter(s, p), q) == Filter(s, pq)
  {
    if |s| > 0 {
      FilterFuse(s[1..], p, q, pq);
      if p(s[0]) {
        var rest := Filter(s[1..], p);
        assert Filter(s, p) == [s[0]] + rest;
        assert ([s[0]] + rest)[1..] == rest;
      }
    }
  }

  /** Filters by pointwise-equal predicates agree. */
  lemma {:induction false} FilterSamePredicate<T(!new)>(s: seq<T>, p: T -> bool, q: T -> bool)
    requires forall x :: p(x) == q(x)
    ensures Filter(s, p) == Filter(s, q)
  {
    if |s| > 0 {
      FilterSamePredicate(s[1..], p, q);
    }
  }

  /** A predicate that holds everywhere filters nothing out. */
  lemma {:induction false} FilterKeepsAll<T(!new)>(s: seq<T>, p: T -> bool)
    requires forall x :: p(x)
    ensures Filter(s, p) == s
  {
    if |s| > 0 {
      FilterKeepsAll(s[1..], p);
      assert [s[0]] + s[1..] == s;
    }
  }

  /** Elements of a subsequence are elements of the whole. */
  lemma {:induction false} SubsequenceMembers<T(!new)>(a: seq<T>, b: seq<T>)
    requires SubsequenceOf(a, b)
    ensures forall x :: x in a ==> x in b
    decreases |b|
  {
    if |a| > 0 {
      if a[0] == b[0] && SubsequenceOf(a[1..], b[1..]) {
        SubsequenceMembers(a[1..], b[1..]);
        assert forall x :: x in a ==> x == a[0] || x in a[1..];
      } else {
        SubsequenceMembers(a, b[1..]);
      }
    }
  }

  /** A subsequence keeps every pairwise relation of the whole, in particular its order. */
  lemma {:induction false} SubsequencePairwise<T(!new)>(a: seq<T>, b: seq<T>, rel: (T, T) -> bool)
    requires SubsequenceOf(a, b) && Pairwise(b, rel)
    ensures Pairwise(a, rel)
    decreases |b|
  {
    if |a| > 0 {
      assert Pairwise(b[1..], rel);
      if a[0] == b[0] && SubsequenceOf(a[1..], b[1..]) {
        SubsequencePairwise(a[1..], b[1..], rel);
        SubsequenceMembers(a[1..], b[1..]);
        forall i, j | 0 <= i < j < |a|
          ensures rel(a[i], a[j])
        {
          if i > 0 {
            assert a[i] == a[1..][i - 1] && a[j] == a[1..][j - 1];
          } else {
            assert a[j] in a[1..];
            var k :| 0 <= k < |b[1..]| && b[1..][k] == a[j];
            assert rel(b[0], b[k + 1]);
          }
        }
      } else {
        SubsequencePairwise(a, b[1..], rel);
      }
    }
  }

  /** A contiguous slice keeps a pairwise relation. */
  lemma PairwiseSlice<T>(s: seq<T>, lo: int, hi: int, rel: (T, T) -> bool)
    requires 0 <= lo <= hi <= |s| && Pairwise(s, rel)
    ensures Pairwise(s[lo..hi], rel)
  {
    forall i, j | 0 <= i < j < hi - lo
      ensures rel(s[lo..hi][i], s[lo..hi][j])
    {
      assert s[lo..hi][i] == s[lo + i] && s[lo..hi][j] == s[lo + j];
    }
  }

  /** Appending an element related to everything before it keeps a pairwise relation. */
  lemma PairwiseAppend<T(!new)>(s: seq<T>, x: T, rel: (T, T) -> bool)
    requires Pairwise(s, rel)
    requires forall y :: y in s ==> rel(y, x)
    ensures Pairwise(s + [x], rel)
  {
    var t := s + [x];
    forall i, j | 0 <= i < j < |t|
      ensures rel(t[i], t[j])
    {
      if j == |s| {
        assert t[i] in s;
      } else {
        assert t[i] == s[i] && t[j] == s[j];
      }
    }
  }
}

=== FILE: views.dfy ===
/**
 * The views of api/views.py that hold logic: the system detail page (a read
 * that looks the system up by key alone), the three write views that look
 * the system up by key and owner, and the owner-scoped querysets and create
 * hooks of the two REST viewsets. The caller is the authenticated user the
 * login check lets through.
 */
module Views {
  import opened Options
  import opened Seqs
  import opened Models
  import opened Ordering
  import opened Filters
  import opened Query
  import opened Paging

  /** What a write request answers; the store after it is carried alongside. */
  datatype Outcome =
    | Redirect
    | MeasurementCreated(measurement: Measurement)
    | SystemCreated(system: HydroponicSystem)
    | NotFound
    | Rejected
    | StoreError

  datatype Step = Step(store: Store, outcome: Outcome)

  /** What the detail template receives that depends on the data. */
  datatype Detail = Detail(system: HydroponicSystem, filter: FilterSpec, page: Page<Measurement>)

  datatype DetailResponse = Rendered(detail: Detail) | Missing

  /** `get_object_or_404(HydroponicSystem, id=id)`. */
  function FindSystem(s: Store, id: SystemId): (r: Option<HydroponicSystem>)
    ensures r.Some? <==> HasSystem(s, id)
    ensures r.Some? ==> r.value in s.systems && r.value.id == id
  {
    var hits := Filter(s.systems, (x: HydroponicSystem) => x.id == id);
    if |hits| == 0 then None
    else
      assert hits[0] in hits;
      Some(hits[0])
  }

  /** `get_object_or_404(HydroponicSystem, id=id, owner=owner)`: the ownership check. */
  function FindOwnedSystem(s: Store, id: SystemId, owner: UserId): (r: Option<HydroponicSystem>)
    ensures r.Some? <==> exists x :: x in s.systems && x.id == id && x.owner == owner
    ensures r.Some? ==> r.value in s.systems && r.value.id == id && r.value.owner == owner
  {
    var hits := Filter(s.systems, (x: HydroponicSystem) => x.id == id && x.owner == owner);
    if |hits| == 0 then None
    else
      assert hits[0] in hits;
      Some(hits[0])
  }

  /** `HydroponicSystemViewSet.get_queryset`: the caller's systems and no others. */
  function OwnedSystems(s: Store, caller: UserId): (r: seq<HydroponicSystem>)
    ensures forall x :: x in r <==> x in s.systems && x.owner == caller
    ensures SubsequenceOf(r, s.systems)
  {
    Filter(s.systems, (x: HydroponicSystem) => x.owner == caller)
  }

  /** `MeasurementViewSet.get_queryset`: measurements of the caller's systems and no others. */
  function OwnedMeasurements(s: Store, caller: UserId): (r: seq<Measurement>)
    ensures forall m :: m in r <==>
              m in s.measurements && exists x :: x in s.systems && x.id == m.system && x.owner == caller
    ensures SubsequenceOf(r, s.measurements)
  {
    var mine := SystemsOf(s, caller);
    Filter(s.measurements, (m: Measurement) => m.system in mine)
  }

  /** In a valid store no measurement is visible through the viewset to two different users. */
  lemma OwnedMeasurementsDisjoint(s: Store, u: UserId, v: UserId)
    requires Valid(s) && u != v
    ensures forall m :: m in OwnedMeasurements(s, u) ==> m !in OwnedMeasurements(s, v)
  {
    forall m | m in OwnedMeasurements(s, u)
      ensures m !in OwnedMeasurements(s, v)
    {
      var x :| x in s.systems && x.id == m.system && x.owner == u;
      forall y | y in s.systems && y.id == m.system
        ensures y.owner != v
      {
        SystemKeyUnique(s, x, y);
      }
    }
  }

  /** A page cut from the rows is newest first and holds only matching measurements of the system. */
  lemma PageOfRows(s: Store, id: SystemId, spec: FilterSpec, conv: Conversions)
    ensures NewestFirst(GetPage(Rows(s, id, spec, conv), spec.page).items)
    ensures forall m :: m in GetPage(Rows(s, id, spec, conv), spec.page).items ==>
              m in s.measurements && m.system == id && Matches(spec, conv, m)
  {
    var rows := Rows(s, id, spec, conv);
    var pg := GetPage(rows, spec.page);
    PairwiseSlice(rows, (pg.number - 1) * PerPage, Min(pg.number * PerPage, |rows|), NotOlder);
    forall m | m in pg.items
      ensures m in rows
    {
    }
  }

  /**
   * The detail of one system under one filter description: the rows that
   * match, newest first, cut to the requested page.
   */
  function DetailOf(s: Store, x: HydroponicSystem, spec: FilterSpec, conv: Conversions): (d: Detail)
    ensures d.system == x && d.filter == spec
    ensures NewestFirst(d.page.items)
    ensures forall m :: m in d.page.items ==> m in s.measurements && m.system == x.id && Matches(spec, conv, m)
    ensures var rows := Rows(s, x.id, spec, conv);
              && d.page.count == |rows|
              && d.page.numPages == NumPages(|rows|)
              && d.page.number == ServedNumber(spec.page, NumPages(|rows|))
              && d.page.items == Window(rows, d.page.number)
    ensures |d.page.items| <= PerPage
    ensures 1 <= d.page.number <= d.page.numPages
    ensures d.page.hasPrevious <==> d.page.number > 1
    ensures d.page.hasNext <==> d.page.number < d.page.numPages
  {
    PageOfRows(s, x.id, spec, conv);
    Detail(x, spec, GetPage(Rows(s, x.id, spec, conv), spec.page))
  }

  /**
   * `system_detail_view`: the system is looked up by key alone, whoever owns
   * it; the page is cut from the filtered, newest-first measurements.
   */
  function SystemDetail(s: Store, caller: UserId, systemId: SystemId, params: Params, conv: Conversions)
    : (r: DetailResponse)
    ensures r.Rendered? <==> HasSystem(s, systemId)
    ensures r.Rendered? ==> r.detail.system in s.systems && r.detail.system.id == systemId
    ensures r.Rendered? ==> r.detail.filter == ParseFilter(params, conv)
    ensures r.Rendered? ==> NewestFirst(r.detail.page.items)
    ensures r.Rendered? ==> forall m :: m in r.detail.page.items ==>
              m in s.measurements && m.system == systemId && Matches(r.detail.filter, conv, m)
    ensures r.Rendered? ==> r.detail.page.count == |Rows(s, systemId, r.detail.filter, conv)|
    ensures r.Rendered? ==> |r.detail.page.items| <= PerPage
    ensures r.Rendered? ==> 1 <= r.detail.page.number <= r.detail.page.numPages
    ensures r.Rendered? ==>
              var rows := Rows(s, systemId, r.detail.filter, conv);
              && r.detail.page.number == ServedNumber(r.detail.filter.page, NumPages(|rows|))
              && r.detail.page.numPages == NumPages(|rows|)
              && r.detail.page.items == Window(rows, r.detail.page.number)
    ensures r.Rendered? ==> (r.detail.page.hasPrevious <==> r.detail.page.number > 1)
    ensures r.Rendered? ==> (r.detail.page.hasNext <==> r.detail.page.number < r.detail.page.numPages)
  {
    match FindSystem(s, systemId)
    case None => Missing
    case Some(x) => Rendered(DetailOf(s, x, ParseFilter(params, conv), conv))
  }

  /**
   * The detail page shows any existing system to any logged-in user: the
   * owner check of the other views is missing here.
   */
  lemma ForeignSystemShown(s: Store, caller: UserId, x: HydroponicSystem, params: Params, conv: Conversions)
    requires Valid(s) && x in s.systems && x.owner != caller
    ensures SystemDetail(s, caller, x.id, params, conv).Rendered?
    ensures SystemDetail(s, caller, x.id, params, conv).detail.system == x
  {
    var y := SystemDetail(s, caller, x.id, params, conv).detail.system;
    SystemKeyUnique(s, x, y);
  }

  /** The display flags choose columns only: requests that differ only in them get the same rows. */
  lemma FlagsDoNotChangeRows(s: Store, caller: UserId, systemId: SystemId, p: Params, q: Params, conv: Conversions)
    requires forall k :: k !in FlagKeys ==> Lookup(p, k) == Lookup(q, k)
    ensures SystemDetail(s, caller, systemId, p, conv).Rendered? == SystemDetail(s, caller, systemId, q, conv).Rendered?
    ensures SystemDetail(s, caller, systemId, p, conv).Rendered? ==>
              SystemDetail(s, caller, systemId, p, conv).detail.page == SystemDetail(s, caller, systemId, q, conv).detail.page
  {
    var keys := [StartKey, EndKey, FilterTypeKey, MinKey, MaxKey, PageKey];
    forall k | k in keys ensures Lookup(p, k) == Lookup(q, k) {
      assert k !in FlagKeys;
    }
    var a := ParseFilter(p, conv);
    var b := ParseFilter(q, conv);
    assert a.start == b.start && a.end == b.end && a.value == b.value && a.page == b.page;
    forall m ensures Matches(a, conv, m) == Matches(b, conv, m) { }
    FilterSamePredicate(OrderedBase(s, systemId), MatchesFn(a, conv), MatchesFn(b, conv));
  }

  /**
   * The detail page as evidently intended: the system is looked up by key
   * and owner, and every parsed value bound is applied.
   */
  function SystemDetailGuarded(s: Store, caller: UserId, systemId: SystemId, params: Params, conv: Conversions)
    : (r: DetailResponse)
    ensures r.Rendered? <==> exists x :: x in s.systems && x.id == systemId && x.owner == caller
    ensures r.Rendered? ==> r.detail.system in s.systems && r.detail.system.owner == caller && r.detail.system.id == systemId
    ensures r.Rendered? ==> r.detail.filter == ParseFilterIntended(params, conv)
    ensures r.Rendered? ==>
              var rows := Rows(s, systemId, r.detail.filter, conv);
              && r.detail.page.number == ServedNumber(r.detail.filter.page, NumPages(|rows|))
              && r.detail.page.numPages == NumPages(|rows|)
              && r.detail.page.items == Window(rows, r.detail.page.number)
    ensures r.Rendered? ==> NewestFirst(r.detail.page.items)
    ensures r.Rendered? ==> forall m :: m in r.detail.page.items ==>
              m in s.measurements && m.system == systemId && Matches(r.detail.filter, conv, m)
    ensures r.Rendered? ==> r.detail.page.count == |Rows(s, systemId, r.detail.filter, conv)|
    ensures r.Rendered? ==> (r.detail.page.hasPrevious <==> r.detail.page.number > 1)
    ensures r.Rendered? ==> (r.detail.page.hasNext <==> r.detail.page.number < r.detail.page.numPages)
  {
    match FindOwnedSystem(s, systemId, caller)
    case None => Missing
    case Some(x) => Rendered(DetailOf(s, x, ParseFilterIntended(params, conv), conv))
  }

  /**
   * `add_system`: on a POST with a non-empty name, one system owned by the
   * caller; `location` defaults to the empty string. A value wider than its
   * declared column is refused by the store.
   */
  function AddSystem(s: Store, caller: UserId, isPost: bool, name: Option<string>, location: Option<string>, now: int)
    : (step: Step)
    ensures step.store.users == s.users && step.store.measurements == s.measurements
    ensures step.outcome == StoreError <==>
              isPost && name.Some? && name.value != "" && !FieldsFit(name.value, Some(location.GetOr("")))
    ensures step.outcome != StoreError ==> step.outcome == Redirect
    ensures step.store != s <==>
              isPost && name.Some? && name.value != "" && FieldsFit(name.value, Some(location.GetOr("")))
    ensures step.store != s ==>
              && |step.store.systems| == |s.systems| + 1
              && step.store.systems[..|s.systems|] == s.systems
              && step.store.systems[|s.systems|].owner == caller
              && step.store.systems[|s.systems|].name == name.value
              && step.store.systems[|s.systems|].location == Some(location.GetOr(""))
              && step.store.systems[|s.systems|].createdAt == now
  {
    if !isPost || name.None? || name.value == "" then Step(s, Redirect)
    else
      var loc := Some(location.GetOr(""));
      if !FieldsFit(name.value, loc) then Step(s, StoreError)
      else
        var (t, x) := InsertSystem(s, caller, name.value, loc, now);
        assert t.systems[..|s.systems|] == s.systems;
        assert |t.systems| != |s.systems|;
        Step(t, Redirect)
  }

  /**
   * `add_sensor`: only the caller's own system gets a new measurement,
   * stamped `now`; an absent or foreign system is NotFound and nothing changes.
   */
  function AddSensor(s: Store, caller: UserId, systemId: SystemId, ph: real, temperature: real, tds: real, now: int)
    : (step: Step)
    ensures step.outcome.MeasurementCreated? <==>
              exists x :: x in s.systems && x.id == systemId && x.owner == caller
    ensures !step.outcome.MeasurementCreated? ==> step.outcome == NotFound && step.store == s
    ensures step.outcome.MeasurementCreated? ==>
              var m := step.outcome.measurement;
              && step.store.measurements == s.measurements + [m]
              && m.system == systemId && m.timestamp == now
              && m.ph == ph && m.temperature == temperature && m.tds == tds
              && step.store.systems == s.systems && step.store.users == s.users
  {
    match FindOwnedSystem(s, systemId, caller)
    case None => Step(s, NotFound)
    case Some(x) =>
      var (t, m) := InsertMeasurement(s, x.id, ph, temperature, tds, now);
      Step(t, MeasurementCreated(m))
  }

  /**
   * `delete_system`: only the caller's own system is deleted, with exactly
   * its measurements; an absent or foreign system is NotFound and nothing changes.
   */
  function DeleteSystem(s: Store, caller: UserId, systemId: SystemId): (step: Step)
    ensures step.outcome == Redirect <==> exists x :: x in s.systems && x.id == systemId && x.owner == caller
    ensures step.outcome != Redirect ==> step.outcome == NotFound && step.store == s
    ensures step.outcome == Redirect ==>
              && step.store.users == s.users
              && (forall x :: x in step.store.systems <==> x in s.systems && x.id != systemId)
              && (forall m :: m in step.store.measurements <==> m in s.measurements && m.system != systemId)
  {
    match FindOwnedSystem(s, systemId, caller)
    case None => Step(s, NotFound)
    case Some(x) => Step(DeleteSystemCascade(s, x.id), Redirect)
  }

  /**
   * `HydroponicSystemViewSet.perform_create`: the new system's owner is the
   * caller, whatever owner the request body names. A blank name or a value
   * wider than its column is refused by the serializer.
   */
  function CreateOwnedSystem(s: Store, caller: UserId, claimedOwner: Option<UserId>,
                             name: string, location: Option<string>, now: int): (step: Step)
    ensures step.outcome.SystemCreated? <==> name != "" && FieldsFit(name, location)
    ensures !step.outcome.SystemCreated? ==> step.outcome == Rejected && step.store == s
    ensures step.outcome.SystemCreated? ==>
              var x := step.outcome.system;
              && x.owner == caller && x.name == name && x.location == location && x.createdAt == now
              && step.store.systems == s.systems + [x]
              && step.store.users == s.users && step.store.measurements == s.measurements
  {
    if name == "" || !FieldsFit(name, location) then Step(s, Rejected)
    else
      var (t, x) := InsertSystem(s, caller, name, location, now);
      Step(t, SystemCreated(x))
  }

  /**
   * `MeasurementViewSet.perform_create`: a measurement may be added only to
   * an existing system the caller owns; anything else is refused and no row
   * is created. The timestamp is the creation instant.
   */
  function CreateCheckedMeasurement(s: Store, caller: UserId, systemId: SystemId,
                                    ph: real, temperature: real, tds: real, now: int): (step: Step)
    requires Valid(s)
    ensures step.outcome.MeasurementCreated? <==>
              exists x :: x in s.systems && x.id == systemId && x.owner == caller
    ensures !step.outcome.MeasurementCreated? ==> step.outcome == Rejected && step.store == s
    ensures step.outcome.MeasurementCreated? ==>
              var m := step.outcome.measurement;
              && step.store.measurements == s.measurements + [m]
              && m.system == systemId && m.timestamp == now
              && m.ph == ph && m.temperature == temperature && m.tds == tds
              && step.store.systems == s.systems && step.store.users == s.users
  {
    match FindSystem(s, systemId)
    case None => Step(s, Rejected)
    case Some(x) =>
      if x.owner != caller then
        assert forall y :: y in s.systems && y.id == systemId ==> y.owner != caller by {
          forall y | y in s.systems && y.id == systemId ensures y.owner != caller {
            SystemKeyUnique(s, x, y);
          }
        }
        Step(s, Rejected)
      else
        var (t, m) := InsertMeasurement(s, x.id, ph, temperature, tds, now);
        Step(t, MeasurementCreated(m))
  }

  /**
   * The writes of the page views keep the store valid (unique keys and
   * emails, owners and systems that exist, declared widths) and rewrite no
   * existing record, so `created_at` and `timestamp` keep their creation
   * values; a created record gets a key no record had.
   */
  lemma AddSystemPreservesValid(s: Store, caller: UserId, isPost: bool, name: Option<string>,
                                location: Option<string>, now: int)
    requires Valid(s) && HasUser(s, caller)
    ensures Valid(AddSystem(s, caller, isPost, name, location, now).store)
    ensures RecordsKept(s, AddSystem(s, caller, isPost, name, location, now).store)
    ensures AddSystem(s, caller, isPost, name, location, now).store != s ==>
              !HasSystem(s, AddSystem(s, caller, isPost, name, location, now).store.systems[|s.systems|].id)
  {
    if isPost && name.Some? && name.value != "" && FieldsFit(name.value, Some(location.GetOr(""))) {
      InsertSystemPreservesValid(s, caller, name.value, Some(location.GetOr("")), now);
    }
  }

  lemma AddSensorPreservesValid(s: Store, caller: UserId, systemId: SystemId,
                                ph: real, temperature: real, tds: real, now: int)
    requires Valid(s)
    ensures Valid(AddSensor(s, caller, systemId, ph, temperature, tds, now).store)
    ensures RecordsKept(s, AddSensor(s, caller, systemId, ph, temperature, tds, now).store)
    ensures AddSensor(s, caller, systemId, ph, temperature, tds, now).outcome.MeasurementCreated? ==>
              forall m :: m in s.measurements ==>
                m.id != AddSensor(s, caller, systemId, ph, temperature, tds, now).outcome.measurement.id
  {
    if HasSystem(s, systemId) {
      InsertMeasurementPreservesValid(s, systemId, ph, temperature, tds, now);
    }
  }

  lemma DeleteSystemKeepsValid(s: Store, caller: UserId, systemId: SystemId)
    requires Valid(s)
    ensures Valid(DeleteSystem(s, caller, systemId).store)
    ensures RecordsKept(s, DeleteSystem(s, caller, systemId).store)
    ensures DeleteSystem(s, caller, systemId).outcome == Redirect ==>
              !HasSystem(DeleteSystem(s, caller, systemId).store, systemId)
  {
    DeleteSystemPreservesValid(s, systemId);
  }

  /** The viewset create hooks keep the store valid and rewrite no existing record. */
  lemma ViewSetCreatesPreserveValid(s: Store, caller: UserId, claimedOwner: Option<UserId>, name: string,
                                    location: Option<string>, systemId: SystemId,
                                    ph: real, temperature: real, tds: real, now: int)
    requires Valid(s) && HasUser(s, caller)
    ensures Valid(CreateOwnedSystem(s, caller, claimedOwner, name, location, now).store)
    ensures RecordsKept(s, CreateOwnedSystem(s, caller, claimedOwner, name, location, now).store)
    ensures Valid(CreateCheckedMeasurement(s, caller, systemId, ph, temperature, tds, now).store)
    ensures RecordsKept(s, CreateCheckedMeasurement(s, caller, systemId, ph, temperature, tds, now).store)
  {
    if name != "" && FieldsFit(name, location) {
      InsertSystemPreservesValid(s, caller, name, location, now);
    }
    if HasSystem(s, systemId) {
      InsertMeasurementPreservesValid(s, systemId, ph, temperature, tds, now);
    }
  }
}
